=== FILE: README.md ===
# Gemini Buddy conversation controller in Dafny

Gemini Buddy is a voice chat front-end. The user talks to an animated avatar. The speech is transcribed and sent to a hosted language model, and the reply is spoken back. All the logic sits in one React hook, `useGeminiBuddy` (src/hooks/use-gemini-buddy.ts). It holds:

- a status machine over idle, listening, thinking and speaking;
- the transcript of user and robot messages;
- the subtitle of the utterance being spoken;
- a FIFO queue of texts waiting to be spoken, guarded by an `isSpeaking` flag so that only one utterance plays at a time.

This project models that hook as an immutable state record with one pure function per handler. Every browser callback, remote-request outcome and button click is an `Event`. `Buddy.Step` applies one event and `Buddy.Run` applies a whole trace. The `Speak(text)` event calls `speak` directly, which the hook itself never exposes (it returns only status, messages, subtitle and `startConversation`), so traces admit more behaviours than the hook can produce; the lemmas over all traces cover the hook's traces as well.

Modules:

- `BuddyTypes` (types.dfy): the status, messages, notices, recognizer, player and whole-controller records, the fixed fallback strings, and the initial state.
- `SpeechQueue` (speech_queue.dfy): `processSpeechQueue`, `speak`, and the flag release shared by the utterance end and error callbacks. It also holds the player invariant: at most one utterance in flight, nothing lost or reordered, and the engine receives exactly the non-empty texts in push order.
- `Conversation` (conversation.dfy): the utterance callbacks, the opening-prompt effect, the recognition callbacks, both outcomes of a response request, and `startConversation`.
- `Buddy` (buddy.dfy): events, `Step`, `Run`, the whole-state invariant, lemmas over arbitrary traces, and two worked scenarios.

Three append-only records in the player make the ordering promises statable:

- `pushed`: every text passed to `speak`;
- `taken`: every text shifted off the queue head;
- `handed`: every utterance given to the synthesis engine.

`engine` holds the utterances handed over whose end or error has not fired yet. "At most one in flight" is therefore an invariant proved from the flag logic, not a fact of the types.

How the model treats the browser and the remote model:

- Browser callbacks that have no receiver do nothing. That covers an utterance event with nothing in flight, a recognizer event with no open session, a request outcome with no pending request, and a click on the disabled mic button.
- The remote model is a nondeterministic choice: `CompletionOk(text)` or `CompletionFail`, and `Init(ok, prompt)` for the opening prompt.
- Whether the recognizer's `start` throws is the `startThrows` argument of `Toggle`.

## Quirks of the hook

The model follows the code as written. Each quirk below is proved as a lemma or stated in a contract.

- The status reads idle between queued utterances. The end callback sets idle and clears the subtitle before it takes the next item, so the next utterance is already in flight while the status is idle (`Conversation.OnUtteranceEnd`).
- The status does not track playback. A playback error leaves status and subtitle untouched, so after an error on the last queued utterance the status stays `speaking` with nothing playing, and the mic button stays disabled (`Buddy.SpeakingAfterLastError`).
- The queue stalls on an empty text. An empty head is dropped, the flag is reset and nothing is played. The texts behind it wait until the next `speak` call, which takes the oldest of them first; if that one is empty too, it is dropped in turn and nothing plays (`SpeechQueue.EmptyHeadStalls`).
- An empty response stalls the controller. If the model answers with an empty string while the controller is thinking and nothing is in flight or queued, nothing plays, so the status stays `thinking` and the mic button stays disabled, unless the recognition session is still open and the recognizer then reports an error, which sets idle (`Buddy.ThinkingAfterEmptyResponse`).
- A text leaves the queue the moment it is handed to the engine, not when it finishes playing. So after startup the queue is empty and the greeting is in flight (`Buddy.StartupFallbackScenario`).
- The opening prompt replaces the transcript. If the user spoke before the opening prompt resolved, those messages are discarded (`Conversation.Initialize`).

## Model

| member | source | states |
|---|---|---|
| BuddyTypes.Initial | src/hooks/use-gemini-buddy.ts:20-27 | The mounted controller is idle, with an empty transcript, empty subtitle, empty queue, clear flag, no query sent and the opening prompt pending. It carries one notice exactly when the browser has no speech recognition (the toast at lines 87-93). |
| SpeechQueue.ProcessQueue | src/hooks/use-gemini-buddy.ts:29-41 | Nothing happens while the flag is set or the queue is empty. Otherwise exactly the head is taken, and taken-then-queued stays the same sequence. An empty head leaves the flag clear and the engine unchanged. A non-empty head sets the flag and is appended to the engine. |
| SpeechQueue.Enqueue | src/hooks/use-gemini-buddy.ts:61-66 | speak appends the text to the push record. While an utterance is in flight it only appends to the tail: the engine and the flag are untouched, so no preemption. From an idle, empty queue a non-empty text plays at once and an empty one is dropped. If texts were already waiting with the flag clear, the oldest of them is taken, not the new text. |
| SpeechQueue.Release | src/hooks/use-gemini-buddy.ts:46-57 | After the utterance in flight ends or fails, the flag is cleared and the next non-empty waiting text is handed over at once. An empty queue leaves nothing in flight. An empty head is dropped and nothing plays. |
| SpeechQueue.NonEmpty | src/hooks/use-gemini-buddy.ts:36-39 | The texts the engine can receive: every result is a non-empty text drawn from the input, and every non-empty input text is in the result. An input of only non-empty texts comes back unchanged, so together with filtering distributing over concatenation the order is kept. |
| SpeechQueue.ProcessQueueValid | src/hooks/use-gemini-buddy.ts:29-41 | Taking the head preserves the player invariant: mutual exclusion, pushed = taken ++ queue, and handed = the non-empty taken texts, with the last one handed still in flight. |
| SpeechQueue.EnqueueValid | src/hooks/use-gemini-buddy.ts:61-66 | speak preserves the player invariant. |
| SpeechQueue.ReleaseValid | src/hooks/use-gemini-buddy.ts:46-57 | The end or error release preserves the player invariant. |
| SpeechQueue.EmptyHeadStalls | src/hooks/use-gemini-buddy.ts:36-39 | When the head is empty and more texts wait behind it, the release drops the head, hands nothing over and leaves the flag clear. The remaining texts wait until the next speak, which takes the oldest of them first. |
| Conversation.OnUtteranceStart | src/hooks/use-gemini-buddy.ts:42-45 | The start of the utterance in flight sets status speaking. The subtitle becomes that utterance, which is the last one handed to the engine. Queue, transcript and notices are untouched. |
| Conversation.OnUtteranceEnd | src/hooks/use-gemini-buddy.ts:46-51 | An end sets idle and clears the subtitle, then releases the queue. When a non-empty text was waiting, it is in flight while the status reads idle. Transcript and notices are untouched. |
| Conversation.OnUtteranceError | src/hooks/use-gemini-buddy.ts:52-57 | An error adds one speech-error notice and advances the queue exactly as an end does. Status and subtitle are left as they were. |
| Conversation.Initialize | src/hooks/use-gemini-buddy.ts:68-80 | The transcript becomes exactly one robot message, and the same text goes through speak, which appends it to the queue and starts playback when nothing holds the flag. The text is the generated prompt on success and the fixed greeting on failure. |
| Conversation.OnResult | src/hooks/use-gemini-buddy.ts:105-111 | A non-empty transcript appends exactly one user message, sets thinking, and sends that transcript alone as one new query. An empty transcript changes nothing. |
| Conversation.OnResponse | src/hooks/use-gemini-buddy.ts:111-113 | A successful response appends one robot message with the response and pushes that text for speech. The status is left to the queue. |
| Conversation.OnResponseFailure | src/hooks/use-gemini-buddy.ts:114-120 | A failed response appends the fixed apology as a robot message, pushes it for speech, and sets idle. |
| Conversation.OnRecError | src/hooks/use-gemini-buddy.ts:124-130 | A recognition error always sets idle. It adds a mic-error notice if and only if the code is not no-speech. |
| Conversation.OnRecEnd | src/hooks/use-gemini-buddy.ts:132-136 | The recognizer's end moves listening to idle and leaves every other status, and everything else, unchanged. |
| Conversation.StartConversation | src/hooks/use-gemini-buddy.ts:143-158 | With no recognizer, nothing happens. From listening, a stop is issued and the status becomes idle, while the recognition session stays open so a result delivered after the stop is still handled. Otherwise a start is issued and the status becomes listening with a session open, unless start throws, in which case nothing changes. Transcript, queue, queries, notices and the pending opening prompt are never touched. |
| Buddy.Step | src/app/page.tsx:37-41 | A click while thinking or speaking changes nothing. Handed utterances are never withdrawn. The only event that adds a query is a recognition result, and it adds exactly its transcript. |
| Buddy.MicGated | src/app/page.tsx:41 | The mic toggle has no effect while thinking or speaking. |
| Buddy.StepPreservesInv | src/hooks/use-gemini-buddy.ts:29-158 | Every event preserves the controller invariant. It combines the player invariant with these facts: listening implies an open session, and a session implies a recognizer. The subtitle is empty or a handed utterance. Every robot message's text was passed to speak. Every user message is non-empty and was sent as a query. |
| Buddy.RunPreservesInv | src/hooks/use-gemini-buddy.ts:29-158 | Every trace of events preserves the controller invariant. |
| Buddy.AtMostOneInFlight | src/hooks/use-gemini-buddy.ts:29-35 | After any trace from mount, at most one utterance is in the engine, and the flag is set exactly when one is. |
| Buddy.PlaybackInPushOrder | src/hooks/use-gemini-buddy.ts:61-66 | After any trace from mount, the engine has received exactly the non-empty texts among the oldest pushed ones, in push order. The rest are still queued in push order, whatever the timing of the callbacks. |
| Buddy.LogsOnlyGrow | src/hooks/use-gemini-buddy.ts:105-158 | Along any trace, the records of pushed texts, handed utterances, queries, notices and mic commands only grow at the end. |
| Buddy.OutcomeAdvances | src/hooks/use-gemini-buddy.ts:46-57 | An end or an error with a non-empty text waiting hands that text to the engine and removes it from the queue. |
| Buddy.ErrorsNeverStall | src/hooks/use-gemini-buddy.ts:46-57 | Take an utterance in flight with only non-empty texts waiting, and any mix of ends and errors, one per waiting text. Together they hand every waiting text to the engine in queue order and empty the queue. |
| Buddy.SpeakingAfterLastError | src/hooks/use-gemini-buddy.ts:52-57 | An error on the last queued utterance leaves the status speaking with nothing in flight. The mic toggle and further end events then change nothing. |
| Buddy.ThinkingAfterEmptyResponse | src/hooks/use-gemini-buddy.ts:36-39 | An empty successful response while thinking is dropped by the queue. The status stays thinking with nothing in flight and the mic toggle disabled. |
| Buddy.StartupFallbackScenario | src/hooks/use-gemini-buddy.ts:74-78 | The opening prompt fails. The transcript is the one greeting message, the greeting is in flight and the queue is empty. Its start shows speaking with the greeting as subtitle, and its end returns to idle with an empty subtitle. |
| Buddy.QueryScenario | src/hooks/use-gemini-buddy.ts:105-113 | From a settled idle controller, this sequence runs: toggle, result, successful response, utterance start, utterance end. It passes through listening, thinking (user message and query added), the answer in flight, speaking with the answer as subtitle, and idle. |

## Left out

- The remote completion flows (src/ai/flows/generate-opening-prompt.ts, src/ai/flows/generate-robot-response.ts) are prompt templates around a language-model library. Their result is an arbitrary string or a failure, chosen by the event.
- src/ai/flows/understand-mood.ts is not called by the controller. src/ai/dev.ts only loads configuration.
- The browser speech recognition and synthesis engines are abstract events, so the model does not constrain their ordering. For example, a start may come after an end, and a result may come after `stop`. The recognizer configuration (lines 100-103) is not modelled.
- Toast titles and descriptions, and `console.error` output, are left out. A toast is a `Notice` value.
- The avatar (src/components/ui/robot-avatar.tsx) and message rendering (src/components/ui/chat-message.tsx) are left out, and so is the page layout. They are presentation driven by timers and randomness. Only the disabled state of the mic button (src/app/page.tsx:41) is modelled.
- React effect re-subscription is left out. The recognition effect depends on `status` (line 141), so on every status change its handlers are re-created, its cleanup calls `stop`, and on a browser without recognition the Unsupported toast (lines 87-93) is raised again. `onend` reads `status` through a closure (lines 132-136). The model raises the Unsupported notice once, at mount, and its end handler reads the current status.
- React state updates apply immediately and in program order. The batching of `setState` is not modelled.
- A throwing speech-synthesis API is left out. `processSpeechQueue` sets the flag (line 34) and shifts the head (line 35) before `new SpeechSynthesisUtterance` (line 41) and `speechSynthesis.speak` (line 58). If either throws, for example in a browser without synthesis, the flag stays set forever and every later `speak` only appends to the queue. The exception also escapes `speak` into the `catch` of `initialize` (lines 74-79) or of `onresult` (lines 114-120). The `catch` of `initialize` replaces the transcript with the fallback greeting (line 77), discarding the generated prompt's message. The `catch` of `onresult` appends the apology (line 117). Either text is then passed to `speak` and only waits in the queue behind the stuck flag. The model's `speak` always succeeds, so it assumes a working synthesis engine.
- The source has no timeouts, so the model has none either. A request or utterance that never resolves leaves the state where it is.


=== FILE: buddy.dfy ===
/** The conversation controller as a sequential event system: every browser
    callback, remote-request outcome and button click is an event, `Step`
    applies one and `Run` a whole trace. The lemmas state what holds after any
    trace: at most one utterance in flight, playback in push order, errors
    advance the queue, and the mic gating of the page. */
module Buddy {
  import opened BuddyTypes
  import SpeechQueue
  import Conversation

  /** Everything that can happen to the controller. `Speak` is a direct call of
      speak, which the hook does not expose: it admits more traces than the
      hook can produce, so the lemmas over traces hold a fortiori. The engine
      and recognizer events are the browser callbacks; the completion events
      are the outcomes of a response request and `Init` the outcome of the
      opening-prompt request (its text ignored on failure). */
  datatype Event =
    | Speak(text: string)
    | UtteranceStart
    | UtteranceEnd
    | UtteranceError
    | RecResult(transcript: string)
    | RecError(code: string)
    | RecEnd
    | Toggle(startThrows: bool)
    | CompletionOk(response: string)
    | CompletionFail
    | Init(ok: bool, prompt: string)

  /** The page enables the mic button only while idle or listening. */
  predicate MicEnabled(status: Status) {
    status != Thinking && status != Speaking
  }

  /** One event. A callback with no one to receive it changes nothing: an
      utterance event with no utterance in flight, a recognizer event with no
      open session, a request outcome with no request pending, and a click on
      the disabled mic button. The recognizer's end event also closes its
      session. */
  function Step(s: State, e: Event): (r: State)
    ensures e.Toggle? && !MicEnabled(s.status) ==> r == s
    ensures r.rec.present == s.rec.present
    ensures s.player.handed <= r.player.handed
    ensures r.requests == s.requests || (e.RecResult? && r.requests == s.requests + [e.transcript])
  {
    match e
    case Speak(text) => s.(player := SpeechQueue.Enqueue(s.player, text))
    case UtteranceStart =>
      if s.player.engine == [] then s else Conversation.OnUtteranceStart(s)
    case UtteranceEnd =>
      if s.player.engine == [] then s else Conversation.OnUtteranceEnd(s)
    case UtteranceError =>
      if s.player.engine == [] then s else Conversation.OnUtteranceError(s)
    case RecResult(transcript) =>
      if !s.rec.session then s else Conversation.OnResult(s, transcript)
    case RecError(code) =>
      if !s.rec.session then s else Conversation.OnRecError(s, code)
    case RecEnd =>
      if !s.rec.session then s
      else Conversation.OnRecEnd(s.(rec := s.rec.(session := false)))
    case Toggle(startThrows) =>
      if !MicEnabled(s.status) then s else Conversation.StartConversation(s, startThrows)
    case CompletionOk(response) =>
      if s.awaiting == 0 then s else Conversation.OnResponse(s, response)
    case CompletionFail =>
      if s.awaiting == 0 then s else Conversation.OnResponseFailure(s)
    case Init(ok, prompt) =>
      if !s.openingPending then s else Conversation.Initialize(s, ok, prompt)
  }

  /** The state after a whole trace of events. */
  function Run(s: State, evs: seq<Event>): State
    decreases |evs|
  {
    if evs == [] then s else Run(Step(s, evs[0]), evs[1..])
  }

  /** The invariant of every reachable state:
        - the player invariant (mutual exclusion and FIFO);
        - listening only with an open recognition session, a session only with
          a recognizer, and no mic command without one;
        - the subtitle is empty or an utterance that was handed to the engine;
        - every robot message's text was passed to speak, and every user
          message is non-empty and was sent as a query. */
  predicate Inv(s: State) {
    && SpeechQueue.Valid(s.player)
    && (s.status == Listening ==> s.rec.session)
    && (s.rec.session ==> s.rec.present)
    && (!s.rec.present ==> s.rec.commands == [])
    && (s.subtitle == "" || s.subtitle in s.player.handed)
    && (forall i :: 0 <= i < |s.messages| && s.messages[i].author == Robot ==>
          s.messages[i].text in s.player.pushed)
    && (forall i :: 0 <= i < |s.messages| && s.messages[i].author == User ==>
          s.messages[i].text != "" && s.messages[i].text in s.requests)
  }

  lemma InPrefix(x: string, a: seq<string>, b: seq<string>)
    requires a <= b && x in a
    ensures x in b
  {
    var i :| 0 <= i < |a| && a[i] == x;
    assert b[i] == x;
  }

  lemma InitialInv(supported: bool)
    ensures Inv(Initial(supported))
  {
    SpeechQueue.SilentValid();
  }

  /** A state whose player changed by handing utterances over, and nothing
      that the invariant reads besides, still satisfies the invariant. */
  lemma PlayerChangeInv(s: State, r: State)
    requires Inv(s) && SpeechQueue.Valid(r.player)
    requires s.player.pushed <= r.player.pushed && s.player.handed <= r.player.handed
    requires r.status == s.status && r.rec == s.rec && r.subtitle == s.subtitle
    requires r.messages == s.messages && r.requests == s.requests
    ensures Inv(r)
  {
    if s.subtitle != "" { InPrefix(s.subtitle, s.player.handed, r.player.handed); }
    forall i | 0 <= i < |r.messages| && r.messages[i].author == Robot
      ensures r.messages[i].text in r.player.pushed
    {
      InPrefix(r.messages[i].text, s.player.pushed, r.player.pushed);
    }
  }

  lemma SpeakInv(s: State, text: string)
    requires Inv(s)
    ensures Inv(Step(s, Speak(text)))
  {
    SpeechQueue.EnqueueValid(s.player, text);
    PlayerChangeInv(s, Step(s, Speak(text)));
  }

  lemma UtteranceInv(s: State, e: Event)
    requires Inv(s) && (e.UtteranceStart? || e.UtteranceEnd? || e.UtteranceError?)
    ensures Inv(Step(s, e))
  {
    if s.player.engine != [] {
      SpeechQueue.ReleaseValid(s.player);
      var r := Step(s, e);
      if r.subtitle != "" { InPrefix(r.subtitle, s.player.handed, r.player.handed); }
      forall i | 0 <= i < |r.messages| && r.messages[i].author == Robot
        ensures r.messages[i].text in r.player.pushed
      {
        assert r.messages[i] == s.messages[i];
      }
    }
  }

  lemma ResponseInv(s: State, e: Event)
    requires Inv(s) && (e.CompletionOk? || e.CompletionFail?)
    ensures Inv(Step(s, e))
  {
    if s.awaiting > 0 {
      var said := if e.CompletionOk? then e.response else Apology;
      var r := Step(s, e);
      SpeechQueue.EnqueueValid(s.player, said);
      if s.subtitle != "" { InPrefix(s.subtitle, s.player.handed, r.player.handed); }
      forall i | 0 <= i < |r.messages| && r.messages[i].author == Robot
        ensures r.messages[i].text in r.player.pushed
      {
        if i < |s.messages| {
          assert r.messages[i] == s.messages[i];
          InPrefix(r.messages[i].text, s.player.pushed, r.player.pushed);
        } else {
          assert r.messages[i].text == said;
        }
      }
      forall i | 0 <= i < |r.messages| && r.messages[i].author == User
        ensures r.messages[i].text != "" && r.messages[i].text in r.requests
      {
        assert r.messages[i] == s.messages[i];
      }
    }
  }

  lemma InitInv(s: State, ok: bool, prompt: string)
    requires Inv(s)
    ensures Inv(Step(s, Init(ok, prompt)))
  {
    if s.openingPending {
      var r := Step(s, Init(ok, prompt));
      SpeechQueue.EnqueueValid(s.player, if ok then prompt else FallbackGreeting);
      if s.subtitle != "" { InPrefix(s.subtitle, s.player.handed, r.player.handed); }
    }
  }

  lemma RecognizerInv(s: State, e: Event)
    requires Inv(s) && (e.RecResult? || e.RecError? || e.RecEnd? || e.Toggle?)
    ensures Inv(Step(s, e))
  {
    var r := Step(s, e);
    if e.RecResult? && s.rec.session && e.transcript != "" {
      forall i | 0 <= i < |r.messages| && r.messages[i].author == User
        ensures r.messages[i].text != "" && r.messages[i].text in r.requests
      {
        if i < |s.messages| {
          assert r.messages[i] == s.messages[i];
        }
      }
    }
  }

  /** Every event keeps the invariant. */
  lemma StepPreservesInv(s: State, e: Event)
    requires Inv(s)
    ensures Inv(Step(s, e))
  {
    match e
    case Speak(text) => SpeakInv(s, text);
    case UtteranceStart => UtteranceInv(s, e);
    case UtteranceEnd => UtteranceInv(s, e);
    case UtteranceError => UtteranceInv(s, e);
    case RecResult(_) => RecognizerInv(s, e);
    case RecError(_) => RecognizerInv(s, e);
    case RecEnd => RecognizerInv(s, e);
    case Toggle(_) => RecognizerInv(s, e);
    case CompletionOk(_) => ResponseInv(s, e);
    case CompletionFail => ResponseInv(s, e);
    case Init(ok, prompt) => InitInv(s, ok, prompt);
  }

  /** Every trace keeps the invariant. */
  lemma {:induction false} RunPreservesInv(s: State, evs: seq<Event>)
    requires Inv(s)
    ensures Inv(Run(s, evs))
    decreases |evs|
  {
    if evs != [] {
      StepPreservesInv(s, evs[0]);
      RunPreservesInv(Step(s, evs[0]), evs[1..]);
    }
  }

  /** After any trace from mount, at most one utterance is in the engine, and
      the flag is set exactly when one is. */
  lemma AtMostOneInFlight(supported: bool, evs: seq<Event>)
    ensures var p := Run(Initial(supported), evs).player;
            |p.engine| <= 1 && (p.isSpeaking <==> |p.engine| == 1)
  {
    InitialInv(supported);
    RunPreservesInv(Initial(supported), evs);
  }

  /** After any trace from mount, the engine has received exactly the non-empty
      texts among the oldest pushed ones, in push order, and the rest are
      still queued in push order: playback order is call order whatever the
      timing of the callbacks. */
  lemma PlaybackInPushOrder(supported: bool, evs: seq<Event>)
    ensures var p := Run(Initial(supported), evs).player;
            && |p.taken| <= |p.pushed|
            && p.handed == SpeechQueue.NonEmpty(p.pushed[..|p.taken|])
            && p.queue == p.pushed[|p.taken|..]
  {
    InitialInv(supported);
    RunPreservesInv(Initial(supported), evs);
    var p := Run(Initial(supported), evs).player;
    assert p.pushed[..|p.taken|] == p.taken;
  }

  /** One event only appends to the records. */
  lemma StepLogsGrow(s: State, e: Event)
    ensures var r := Step(s, e);
            && s.player.pushed <= r.player.pushed
            && s.notices <= r.notices
            && s.rec.commands <= r.rec.commands
  {
  }

  /** The append-only records only grow along a trace. */
  lemma {:induction false} LogsOnlyGrow(s: State, evs: seq<Event>)
    ensures var r := Run(s, evs);
            && s.player.pushed <= r.player.pushed
            && s.player.handed <= r.player.handed
            && s.requests <= r.requests
            && s.notices <= r.notices
            && s.rec.commands <= r.rec.commands
    decreases |evs|
  {
    if evs != [] {
      StepLogsGrow(s, evs[0]);
      LogsOnlyGrow(Step(s, evs[0]), evs[1..]);
    }
  }

  /** Utterance ends and errors alike. */
  predicate PlaybackOutcomes(evs: seq<Event>) {
    forall i :: 0 <= i < |evs| ==> evs[i].UtteranceEnd? || evs[i].UtteranceError?
  }

  lemma AppendHead(h: seq<string>, q: seq<string>)
    requires q != []
    ensures (h + [q[0]]) + q[1..] == h + q
  {
    assert q == [q[0]] + q[1..];
  }

  /** One end or error with a non-empty text waiting hands that text over. */
  lemma OutcomeAdvances(s: State, e: Event)
    requires Inv(s) && s.player.engine != []
    requires s.player.queue != [] && s.player.queue[0] != ""
    requires e.UtteranceEnd? || e.UtteranceError?
    ensures var r := Step(s, e);
            && Inv(r)
            && r.player.queue == s.player.queue[1..]
            && r.player.handed == s.player.handed + [s.player.queue[0]]
            && r.player.engine == [s.player.queue[0]]
  {
    UtteranceInv(s, e);
  }

  /** Errors never stall the queue: with an utterance in flight and only
      non-empty texts waiting, any mix of ends and errors, one per waiting
      text, hands every waiting text to the engine in queue order. */
  lemma {:induction false} ErrorsNeverStall(s: State, evs: seq<Event>)
    requires Inv(s) && s.player.engine != []
    requires forall i :: 0 <= i < |s.player.queue| ==> s.player.queue[i] != ""
    requires |evs| == |s.player.queue| && PlaybackOutcomes(evs)
    ensures var r := Run(s, evs);
            && r.player.handed == s.player.handed + s.player.queue
            && r.player.queue == []
            && r.player.engine != []
    decreases |evs|
  {
    if evs != [] {
      var s' := Step(s, evs[0]);
      OutcomeAdvances(s, evs[0]);
      assert PlaybackOutcomes(evs[1..]) by {
        forall i | 0 <= i < |evs[1..]|
          ensures evs[1..][i].UtteranceEnd? || evs[1..][i].UtteranceError?
        {
          assert evs[1..][i] == evs[i + 1];
        }
      }
      var q := s.player.queue;
      assert forall i :: 0 <= i < |q[1..]| ==> q[1..][i] == q[i + 1];
      ErrorsNeverStall(s', evs[1..]);
      assert Run(s, evs) == Run(s', evs[1..]);
      AppendHead(s.player.handed, q);
    }
  }

  /** The mic button does nothing while thinking or speaking. */
  lemma MicGated(s: State, startThrows: bool)
    requires s.status == Thinking || s.status == Speaking
    ensures Step(s, Toggle(startThrows)) == s
  {
  }

  /** An error on the last queued utterance leaves the status speaking with
      nothing in flight, and the mic button stays disabled: the status does
      not track playback. */
  lemma SpeakingAfterLastError(s: State, startThrows: bool)
    requires Inv(s) && s.status == Speaking && s.player.engine != [] && s.player.queue == []
    ensures var r := Step(s, UtteranceError);
            && r.status == Speaking && r.player.engine == [] && !r.player.isSpeaking
            && Step(r, Toggle(startThrows)) == r
            && Step(r, UtteranceEnd) == r
  {
  }

  /** An empty response while thinking is dropped by the queue, so nothing is
      ever played and the status stays thinking with the mic button disabled. */
  lemma ThinkingAfterEmptyResponse(s: State, startThrows: bool)
    requires Inv(s) && s.status == Thinking && s.awaiting == 1
    requires !s.player.isSpeaking && s.player.queue == []
    ensures var r := Step(s, CompletionOk(""));
            && r.status == Thinking && r.player.engine == [] && r.player.queue == []
            && r.awaiting == 0
            && Step(r, Toggle(startThrows)) == r
  {
  }

  /** Mount, the opening prompt fails, the greeting plays to its end. */
  lemma StartupFallbackScenario()
    ensures var s1 := Step(Initial(true), Init(false, ""));
            var s2 := Step(s1, UtteranceStart);
            var s3 := Step(s2, UtteranceEnd);
            && s1.messages == [Message(Robot, FallbackGreeting)]
            && s1.player.engine == [FallbackGreeting] && s1.player.queue == []
            && s1.status == Idle
            && s2.status == Speaking && s2.subtitle == FallbackGreeting
            && s3.status == Idle && s3.subtitle == "" && s3.player.engine == []
            && s3.messages == s1.messages
  {
  }

  /** One question and its answer, starting from a settled controller. */
  lemma QueryScenario(s: State, question: string, answer: string)
    requires Inv(s) && s.status == Idle && s.rec.present && !s.rec.session
    requires s.awaiting == 0 && !s.player.isSpeaking && s.player.queue == []
    requires question != "" && answer != ""
    ensures var s1 := Step(s, Toggle(false));
            var s2 := Step(s1, RecResult(question));
            var s3 := Step(s2, CompletionOk(answer));
            var s4 := Step(s3, UtteranceStart);
            var s5 := Step(s4, UtteranceEnd);
            && s1.status == Listening
            && s2.status == Thinking && s2.messages == s.messages + [Message(User, question)]
            && s2.requests == s.requests + [question]
            && s3.messages == s2.messages + [Message(Robot, answer)]
            && s3.player.engine == [answer]
            && s4.status == Speaking && s4.subtitle == answer
            && s5.status == Idle && s5.subtitle == "" && s5.player.engine == []
  {
  }
}

=== FILE: conversation.dfy ===
/** The handlers of the conversation controller in src/hooks/use-gemini-buddy.ts,
    each a pure function of the controller state: the utterance callbacks, the
    opening-prompt effect, the recognition callbacks, the two outcomes of a
    response request, and startConversation. */
module Conversation {
  import opened BuddyTypes
  import SpeechQueue

  /** The utterance in flight starts playing: the avatar speaks it and the
      subtitle shows it. Nothing else changes. */
  function OnUtteranceStart(s: State): (r: State)
    requires s.player.engine != []
    ensures r.status == Speaking && r.subtitle == s.player.engine[0]
    ensures SpeechQueue.Valid(s.player) ==> r.subtitle == s.player.handed[|s.player.handed| - 1]
    ensures r.player == s.player && r.messages == s.messages && r.notices == s.notices
    ensures r.rec == s.rec && r.awaiting == s.awaiting && r.openingPending == s.openingPending
    ensures r.requests == s.requests
  {
    s.(status := Speaking, subtitle := s.player.engine[0])
  }

  /** The utterance in flight ends: status becomes idle and the subtitle is
      cleared before the next queued item is taken, so between two queued
      utterances the status is idle while the next one is already in flight. */
  function OnUtteranceEnd(s: State): (r: State)
    requires s.player.engine != []
    ensures r.status == Idle && r.subtitle == ""
    ensures r.player == SpeechQueue.Release(s.player)
    ensures SpeechQueue.Valid(s.player) && s.player.queue != [] && s.player.queue[0] != "" ==>
              r.status == Idle && r.player.engine == [s.player.queue[0]]
    ensures r.messages == s.messages && r.notices == s.notices && r.rec == s.rec
    ensures r.awaiting == s.awaiting && r.openingPending == s.openingPending
    ensures r.requests == s.requests
  {
    s.(status := Idle, subtitle := "", player := SpeechQueue.Release(s.player))
  }

  /** The utterance in flight fails: the user is notified and the queue moves on
      exactly as after an end, but status and subtitle are left as they were. */
  function OnUtteranceError(s: State): (r: State)
    requires s.player.engine != []
    ensures r.status == s.status && r.subtitle == s.subtitle
    ensures r.notices == s.notices + [SpeechError]
    ensures r.player == SpeechQueue.Release(s.player)
    ensures r.player == OnUtteranceEnd(s).player
    ensures r.messages == s.messages && r.rec == s.rec
    ensures r.awaiting == s.awaiting && r.openingPending == s.openingPending
    ensures r.requests == s.requests
  {
    s.(notices := s.notices + [SpeechError], player := SpeechQueue.Release(s.player))
  }

  /** The opening-prompt request resolves: the transcript is replaced by exactly
      one robot message holding the generated prompt, or the fixed greeting on
      failure, and the same text is passed to speak. */
  function Initialize(s: State, ok: bool, prompt: string): (r: State)
    ensures var said := if ok then prompt else FallbackGreeting;
            && r.messages == [Message(Robot, said)]
            && r.player == SpeechQueue.Enqueue(s.player, said)
            && r.player.pushed == s.player.pushed + [said]
    ensures !ok ==> r.messages[0].text == FallbackGreeting
    ensures !r.openingPending
    ensures r.status == s.status && r.subtitle == s.subtitle && r.notices == s.notices
    ensures r.rec == s.rec && r.awaiting == s.awaiting && r.requests == s.requests
  {
    var said := if ok then prompt else FallbackGreeting;
    s.(messages := [Message(Robot, said)],
       player := SpeechQueue.Enqueue(s.player, said),
       openingPending := false)
  }

  /** A recognition result: a non-empty transcript adds one user message, sets
      the status to thinking and sends that transcript, and only it, as a
      query; an empty transcript changes nothing. */
  function OnResult(s: State, transcript: string): (r: State)
    ensures transcript == "" ==> r == s
    ensures transcript != "" ==>
              && r.messages == s.messages + [Message(User, transcript)]
              && r.status == Thinking
              && r.requests == s.requests + [transcript]
              && r.awaiting == s.awaiting + 1
    ensures r.player == s.player && r.subtitle == s.subtitle && r.notices == s.notices
    ensures r.rec == s.rec && r.openingPending == s.openingPending
  {
    if transcript == "" then s
    else
      s.(messages := s.messages + [Message(User, transcript)],
         status := Thinking,
         requests := s.requests + [transcript],
         awaiting := s.awaiting + 1)
  }

  /** A response request succeeds: one robot message with the response is
      added and the response is spoken; the status is left to the queue. */
  function OnResponse(s: State, response: string): (r: State)
    requires s.awaiting > 0
    ensures r.messages == s.messages + [Message(Robot, response)]
    ensures r.player == SpeechQueue.Enqueue(s.player, response)
    ensures r.player.pushed == s.player.pushed + [response]
    ensures r.awaiting == s.awaiting - 1
    ensures r.status == s.status && r.subtitle == s.subtitle && r.notices == s.notices
    ensures r.rec == s.rec && r.requests == s.requests && r.openingPending == s.openingPending
  {
    s.(messages := s.messages + [Message(Robot, response)],
       player := SpeechQueue.Enqueue(s.player, response),
       awaiting := s.awaiting - 1)
  }

  /** A response request fails: the fixed apology is added as a robot message,
      spoken, and the status returns to idle. */
  function OnResponseFailure(s: State): (r: State)
    requires s.awaiting > 0
    ensures r.messages == s.messages + [Message(Robot, Apology)]
    ensures r.player.pushed == s.player.pushed + [Apology]
    ensures r.player == SpeechQueue.Enqueue(s.player, Apology)
    ensures r.status == Idle
    ensures r.awaiting == s.awaiting - 1
    ensures r.subtitle == s.subtitle && r.notices == s.notices
    ensures r.rec == s.rec && r.requests == s.requests && r.openingPending == s.openingPending
  {
    s.(messages := s.messages + [Message(Robot, Apology)],
       player := SpeechQueue.Enqueue(s.player, Apology),
       status := Idle,
       awaiting := s.awaiting - 1)
  }

  /** A recognition error: the status always returns to idle, and the user is
      notified exactly when the code is not no-speech. */
  function OnRecError(s: State, code: string): (r: State)
    ensures r.status == Idle
    ensures code == NoSpeech ==> r.notices == s.notices
    ensures code != NoSpeech ==> r.notices == s.notices + [MicError(code)]
    ensures |r.notices| == |s.notices| + 1 <==> code != NoSpeech
    ensures r.messages == s.messages && r.player == s.player && r.subtitle == s.subtitle
    ensures r.rec == s.rec && r.awaiting == s.awaiting && r.openingPending == s.openingPending
    ensures r.requests == s.requests
  {
    s.(status := Idle,
       notices := if code != NoSpeech then s.notices + [MicError(code)] else s.notices)
  }

  /** The recognizer's end event: only a listening controller returns to idle;
      in every other status nothing changes. */
  function OnRecEnd(s: State): (r: State)
    ensures r.status != Listening
    ensures s.status == Listening ==> r == s.(status := Idle)
    ensures s.status != Listening ==> r == s
  {
    if s.status == Listening then s.(status := Idle) else s
  }

  /** startConversation, the mic button's handler: with no recognizer nothing
      happens; from listening the recognizer is stopped and the status becomes
      idle; otherwise the recognizer is started and the status becomes
      listening, unless starting throws, in which case nothing changes. */
  function StartConversation(s: State, startThrows: bool): (r: State)
    ensures !s.rec.present ==> r == s
    ensures s.rec.present && s.status == Listening ==>
              r.status == Idle && r.rec.commands == s.rec.commands + [Stop]
    ensures s.rec.present && s.status != Listening && !startThrows ==>
              && r.status == Listening && r.rec.session
              && r.rec.commands == s.rec.commands + [Start]
    ensures s.rec.present && s.status != Listening && startThrows ==> r == s
    ensures r.rec.present == s.rec.present
    ensures s.rec.present && s.status == Listening ==> r.rec.session == s.rec.session
    ensures r.messages == s.messages && r.player == s.player && r.subtitle == s.subtitle
    ensures r.notices == s.notices && r.awaiting == s.awaiting
    ensures r.requests == s.requests && r.openingPending == s.openingPending
  {
    if !s.rec.present then s
    else if s.status == Listening then
      s.(status := Idle, rec := s.rec.(commands := s.rec.commands + [Stop]))
    else if startThrows then s
    else
      s.(status := Listening,
         rec := s.rec.(session := true, commands := s.rec.commands + [Start]))
  }
}

=== FILE: speech_queue.dfy ===
/** The sequential utterance queue of src/hooks/use-gemini-buddy.ts:
    processSpeechQueue, speak, and the part of the utterance end and error
    callbacks that releases the mutual-exclusion flag and takes the next item. */
module SpeechQueue {
  import opened BuddyTypes

  /** The texts of `xs` that are not empty, in their order. */
  function NonEmpty(xs: seq<string>): (r: seq<string>)
    ensures |r| <= |xs|
    ensures forall i :: 0 <= i < |r| ==> r[i] != "" && r[i] in xs
    ensures forall x :: x in xs && x != "" ==> x in r
    ensures (forall i :: 0 <= i < |xs| ==> xs[i] != "") ==> r == xs
  {
    if xs == [] then []
    else if xs[0] == "" then NonEmpty(xs[1..])
    else [xs[0]] + NonEmpty(xs[1..])
  }

  /** Filtering distributes over concatenation. */
  lemma {:induction false} NonEmptyAppend(xs: seq<string>, ys: seq<string>)
    ensures NonEmpty(xs + ys) == NonEmpty(xs) + NonEmpty(ys)
  {
    if xs == [] {
      assert xs + ys == ys;
    } else {
      assert (xs + ys)[0] == xs[0];
      assert (xs + ys)[1..] == xs[1..] + ys;
      NonEmptyAppend(xs[1..], ys);
    }
  }

  /** The player invariant:
        - at most one utterance is in the engine, and the flag is set exactly
          when one is (mutual exclusion);
        - every text ever pushed was either taken off the head, in push order,
          or is still waiting in the queue, in push order (FIFO);
        - the engine received exactly the non-empty taken texts, in order;
        - the utterance in flight is the last one handed over. */
  predicate Valid(p: Player) {
    && |p.engine| <= 1
    && (p.isSpeaking <==> |p.engine| == 1)
    && p.pushed == p.taken + p.queue
    && p.handed == NonEmpty(p.taken)
    && (|p.engine| == 1 ==> |p.handed| > 0 && p.engine[0] == p.handed[|p.handed| - 1])
  }

  /** processSpeechQueue: while no utterance holds the flag, shift the head of
      the queue; an empty head is dropped with the flag reset and nothing
      played, any other head is handed to the engine and keeps the flag. */
  function ProcessQueue(p: Player): (r: Player)
    ensures p.isSpeaking || p.queue == [] ==> r == p
    ensures r.pushed == p.pushed
    ensures r.taken + r.queue == p.taken + p.queue
    ensures p.taken <= r.taken && p.handed <= r.handed
    ensures !p.isSpeaking && p.queue != [] ==>
              && r.queue == p.queue[1..]
              && (p.queue[0] == "" <==> !r.isSpeaking)
              && (p.queue[0] == "" ==> r.engine == p.engine && r.handed == p.handed)
              && (p.queue[0] != "" ==> r.engine == p.engine + [p.queue[0]]
                                        && r.handed == p.handed + [p.queue[0]])
  {
    if p.isSpeaking || p.queue == [] then p
    else
      var head := p.queue[0];
      var rest := p.queue[1..];
      if head == "" then
        p.(queue := rest, taken := p.taken + [head], isSpeaking := false)
      else
        p.(queue := rest, taken := p.taken + [head], isSpeaking := true,
           engine := p.engine + [head], handed := p.handed + [head])
  }

  /** speak: append to the tail of the queue, and start the queue when no
      utterance holds the flag. A later call never preempts the one in flight. */
  function Enqueue(p: Player, text: string): (r: Player)
    ensures r.pushed == p.pushed + [text]
    ensures p.handed <= r.handed
    ensures p.isSpeaking ==> r.isSpeaking && r.engine == p.engine && r.queue == p.queue + [text]
                             && r.handed == p.handed
    ensures !p.isSpeaking && p.queue == [] && text != "" ==>
              r.isSpeaking && r.engine == p.engine + [text] && r.queue == []
    ensures !p.isSpeaking && p.queue == [] && text == "" ==>
              !r.isSpeaking && r.engine == p.engine && r.queue == [] && r.handed == p.handed
    ensures !p.isSpeaking && p.queue != [] ==>
              r.taken == p.taken + [p.queue[0]] && r.queue == p.queue[1..] + [text]
  {
    var q := p.(queue := p.queue + [text], pushed := p.pushed + [text]);
    if !q.isSpeaking then ProcessQueue(q) else q
  }

  /** The end or error of the utterance in flight: the flag is cleared and the
      next queued item, if any, is taken at once. */
  function Release(p: Player): (r: Player)
    requires p.engine != []
    ensures r.pushed == p.pushed
    ensures p.handed <= r.handed
    ensures Valid(p) && p.queue == [] ==> !r.isSpeaking && r.engine == [] && r.queue == []
    ensures Valid(p) && p.queue != [] && p.queue[0] != "" ==>
              && r.isSpeaking && r.engine == [p.queue[0]] && r.queue == p.queue[1..]
              && r.handed == p.handed + [p.queue[0]]
    ensures Valid(p) && p.queue != [] && p.queue[0] == "" ==>
              !r.isSpeaking && r.engine == [] && r.queue == p.queue[1..] && r.handed == p.handed
  {
    ProcessQueue(p.(isSpeaking := false, engine := p.engine[1..]))
  }

  lemma SilentValid()
    ensures Valid(Silent)
  {
  }

  /** Taking the head keeps the invariant. */
  lemma ProcessQueueValid(p: Player)
    requires Valid(p)
    ensures Valid(ProcessQueue(p))
  {
    if !p.isSpeaking && p.queue != [] {
      NonEmptyAppend(p.taken, [p.queue[0]]);
      assert p.taken + p.queue == (p.taken + [p.queue[0]]) + p.queue[1..];
    }
  }

  /** speak keeps the invariant. */
  lemma EnqueueValid(p: Player, text: string)
    requires Valid(p)
    ensures Valid(Enqueue(p, text))
  {
    var q := p.(queue := p.queue + [text], pushed := p.pushed + [text]);
    assert q.pushed == q.taken + q.queue;
    if !q.isSpeaking {
      ProcessQueueValid(q);
    }
  }

  /** Releasing the flag after the utterance in flight keeps the invariant. */
  lemma ReleaseValid(p: Player)
    requires Valid(p) && p.engine != []
    ensures Valid(Release(p))
  {
    ProcessQueueValid(p.(isSpeaking := false, engine := p.engine[1..]));
  }

  /** An empty text at the head stops the queue: after the utterance in flight
      ends, the empty head is discarded, nothing is handed to the engine, and
      the items behind it wait although the flag is clear, until the next
      speak call takes the oldest of them (not the new text). */
  lemma EmptyHeadStalls(p: Player, later: string)
    requires Valid(p) && p.engine != []
    requires |p.queue| >= 2 && p.queue[0] == ""
    ensures var r := Release(p);
            && !r.isSpeaking && r.engine == [] && r.queue == p.queue[1..]
            && Enqueue(r, later).taken == r.taken + [p.queue[1]]
  {
  }
}

=== FILE: types.dfy ===
/** Data model of the Gemini Buddy conversation controller: the status state
    machine, the transcript, the subtitle, the recognizer handle, the pending
    remote requests and the sequential utterance queue, as one immutable record. */
module BuddyTypes {

  /** What the avatar is doing; the single source of truth for the UI. */
  datatype Status = Idle | Listening | Thinking | Speaking

  datatype Author = User | Robot

  /** One transcript entry. Entries are never edited once appended. */
  datatype Message = Message(author: Author, text: string)

  /** A destructive toast shown to the user. */
  datatype Notice =
    | Unsupported              // the browser has no speech recognition
    | MicError(code: string)   // a recognition error other than no-speech
    | SpeechError              // the synthesis engine failed one utterance

  /** A call the controller made on the recognizer. */
  datatype MicCommand = Start | Stop

  /** The speech recognizer as the controller sees it. `session` is true from a
      successful `start` until the recognizer delivers its end event; only an
      open session delivers results, errors and the end event. */
  datatype Recognizer = Recognizer(present: bool, session: bool, commands: seq<MicCommand>)

  /** The utterance queue and its mutual-exclusion flag, plus three append-only
      logs that make the ordering promises statable:
        - `pushed`: every text passed to `speak`, in call order;
        - `taken`:  every text shifted off the head of the queue, in order;
        - `handed`: every utterance handed to the synthesis engine, in order.
      `engine` holds the utterances handed to the engine whose end or error
      event has not fired yet. */
  datatype Player = Player(
    queue: seq<string>,
    isSpeaking: bool,
    engine: seq<string>,
    pushed: seq<string>,
    taken: seq<string>,
    handed: seq<string>)

  /** The whole controller. `openingPending` is true until the opening-prompt
      request resolves; `awaiting` counts response requests not yet resolved;
      `requests` logs every query sent for a response. */
  datatype State = State(
    status: Status,
    messages: seq<Message>,
    subtitle: string,
    notices: seq<Notice>,
    rec: Recognizer,
    openingPending: bool,
    awaiting: nat,
    requests: seq<string>,
    player: Player)

  /** Spoken and shown when the opening prompt cannot be generated. */
  const FallbackGreeting: string :=
    "Hello! I'm Gemini Buddy. How can I help you today? I can understand your voice and talk back."

  /** Spoken and shown when a response cannot be generated. */
  const Apology: string := "I'm sorry, I had some trouble thinking. Could you try again?"

  /** The recognition error code that is not reported to the user. */
  const NoSpeech: string := "no-speech"

  /** A player with nothing queued, nothing playing and empty logs. */
  const Silent: Player := Player([], false, [], [], [], [])

  /** The controller right after mounting: idle, empty transcript and subtitle,
      the opening prompt requested, and one notice exactly when the browser
      offers no speech recognition. */
  function Initial(supported: bool): (s: State)
    ensures s.status == Idle && s.messages == [] && s.subtitle == ""
    ensures s.openingPending && s.awaiting == 0 && s.requests == [] && s.player == Silent
    ensures s.rec.present == supported && !s.rec.session && s.rec.commands == []
    ensures Unsupported in s.notices <==> !supported
    ensures supported ==> s.notices == []
    ensures |s.notices| <= 1
  {
    State(Idle, [], "", if supported then [] else [Unsupported],
          Recognizer(supported, false, []), true, 0, [], Silent)
  }
}
